=== FILE: README.md ===
# Singly-linked list of samples/common/list.c, modelled in Dafny

The C library keeps a generic singly-linked list behind a pthread mutex.
`include/list.h` declares a `list` record with a node count (`length`), a
fixed element width (`elementSize`), `head` and `tail` node pointers, the
lock, and an optional release callback (`freeFn`). `samples/common/list.c`
implements nine operations on it: `list_new`, `list_prepend`,
`list_append`, `list_head`, `list_tail`, `list_for_each`, `list_clear`,
`list_destroy` and `list_size`.

This project models the sequential behaviour of those operations, with
the lock calls taken out.

- **The heap is an explicit value.** `Heap.Store` maps addresses to live
  `listNode` records, and freeing a node removes its address.
- **Pointers are NULL or an address.** Following a pointer that is NULL or
  refers to a freed node is undefined behaviour in C; the model reports it
  as `Err(Fault)`.
- **The contents are computed from the heap.** `Heap.Reach` walks the
  `next` links from `head`, and `TypedList.Elements` is the data of the
  nodes it visits.
- **Elements are values of a type parameter.** The C code copies
  `elementSize` bytes in with `memcpy` (list.c:79 and list.c:112) and out
  again (list.c:166 and list.c:200). In the model that copy is a copy of a
  value, so the list never shares storage with its caller.
- **Allocation is a parameter.** A `TypedList.Alloc` is what `calloc`
  answers: either `OutOfMemory` or a fresh address.

There are two invariants.

- `TypedList.Shaped`: the element width is positive, and the chain from
  `head` ends at NULL through live nodes. Every operation as written keeps
  it.
- `TypedList.Valid`: the invariant the list is meant to keep. It is
  `Shaped`, plus:
  - `length` counts the reachable nodes;
  - `tail` is the last of them, or NULL when there is none;
  - the list owns exactly those nodes.

`list_head` with remove on a one-node list, and `list_clear`, break
`Valid`. They leave `tail` on a freed node; see "Findings". Each of those
two operations is modelled as written. Next to it is a corrected version
that resets `tail`, and that version keeps `Valid`.

Files:

- `outcomes.dfy`: `Option`, `Result` and the error kinds.
- `seqs.dfy`: sequence facts.
- `heap.dfy`: nodes, the store, the chain walk and its lemmas.
- `list.dfy`: the list record, the invariants and one member per C
  function.
- `properties.dfy`: call sequences, round trips and traversal order.
- `dangling_tail.dfy`: the dangling-tail defect, as written and corrected.

The C functions return -1 for every failure. The model names each cause
instead:

- `InvalidArgument`: `list_new` got `elementSize <= 0`.
- `ResourceExhausted`: `calloc` failed.
- `EmptyCollection`: `head` or `tail` is NULL.
- `Fault`: undefined behaviour.

Where the intended behaviour and the code part ways, the model follows the code:

- The list record is meant to keep head NULL ⇔ tail NULL ⇔ length 0.
  `list_head` removing the last node, and `list_clear`, reset `head` and
  `length` but leave `tail` on a freed node. The model does the same.
- Append followed by Head without remove returns the appended element only
  on an empty list, which is how `ListProperties.AppendThenHeadOnEmpty`
  states it. On any other list, `list_head` returns the first element.

## Model

| member | source | states |
|---|---|---|
| Heap.ReachShape | include/list.h:10-14 | A chain of `next` links that reaches NULL visits only live nodes, and visits each of them once, so it has no cycle. |
| Heap.ReachLinks | include/list.h:10-14 | Along such a chain, each node's `next` is the following node, and the last node's `next` is NULL. |
| Heap.ReachFrame | include/list.h:10-14 | A chain depends only on the nodes it visits. Changing or adding other nodes leaves it the same. |
| Heap.ReachRedirect | samples/common/list.c:118-122 | Re-linking the i-th node of a chain, as `tail->next = node` in list_append and `current->next = NULL` in list_tail do, keeps the first i+1 nodes, then continues with whatever the new link leads to. |
| TypedList.ValidEnds | include/list.h:16-25 | On a valid list, head is NULL iff tail is NULL iff length is 0. A one-node list has head == tail. The tail node is live, its `next` is NULL, and it holds the last element. |
| TypedList.New | samples/common/list.c:9-16 | Fails with InvalidArgument exactly when elementSize <= 0. Otherwise it gives a valid empty list with length 0, head and tail NULL, the given width, and the given release callback. |
| TypedList.Prepend | samples/common/list.c:73-89 | Fails exactly when calloc fails, and then with ResourceExhausted. Otherwise the contents become [e] + s and length grows by 1. The new node holds e, links to the old head and becomes head. tail changes only if it was NULL. Every other node is unchanged. Valid is preserved. |
| TypedList.FirstNodeShape | samples/common/list.c:114-117 | On a list whose length is 0, the new node becomes head and tail and is the whole chain. On a valid empty list, the result is valid and holds [e]. |
| TypedList.LinkAfterTailShape | samples/common/list.c:118-122 | Linking the new node behind the live tail keeps the chain well formed. On a valid list, the result is valid and its contents are s + [e]. |
| TypedList.Append | samples/common/list.c:105-124 | calloc failure gives ResourceExhausted. When length is 0, it succeeds whatever head and tail hold: the new node becomes head and tail and is the whole chain [e]. Otherwise a live tail makes it succeed: head is kept, the old tail node links to the new node, and no other node changes. A NULL or freed tail gives Fault. On success, length grows by 1, the new node is tail with `next` NULL, and the heap gains exactly that node. On a valid list, it succeeds exactly when calloc does, stays valid, and the contents become s + [e]. |
| TypedList.PopHeadShape | samples/common/list.c:168-183 | Unlinking and freeing the head leaves a well-formed chain whose nodes and contents are those of the original without the first. |
| TypedList.PopHeadValid | samples/common/list.c:168-183 | Removing the head of a valid list with two or more nodes leaves a valid list. |
| TypedList.Head | samples/common/list.c:163-183 | Fails with EmptyCollection exactly when head is NULL. Otherwise it returns s[0]. Without remove, the list is unchanged. With remove, head becomes the old head's `next`, the contents become s[1..], length drops by 1, exactly the head node is freed, and tail is left as it was. A valid list of two or more nodes stays valid. |
| TypedList.HeadCorrected | samples/common/list.c:163-183 | The same results as list_head: s[0] is returned; with remove, head becomes the old head's `next`, length drops by 1 and exactly the head node is freed. The difference is that tail becomes NULL when head does and is kept otherwise. Removing from a valid list of any length leaves a valid list. On a valid list it succeeds exactly when the list is non-empty. |
| TypedList.RemoveOnlyNode | samples/common/list.c:204-219 | Freeing the node that is both head and tail leaves both NULL. A valid list becomes a valid empty one. |
| TypedList.FindBefore | samples/common/list.c:223-228 | The predecessor search faults if it runs off the chain, and otherwise stops at a node whose `next` is tail. On a valid list of two or more nodes, it always stops at the last node but one. |
| TypedList.CutBeforeShape | samples/common/list.c:230-243 | Making the predecessor the tail, with `next` NULL, and freeing the old tail leaves exactly the chain up to the predecessor, holding the matching prefix of the contents. |
| TypedList.CutBeforeValid | samples/common/list.c:230-243 | On a valid list, that cut gives a valid list holding s[..\|s\|-1]. |
| TypedList.Tail | samples/common/list.c:198-244 | A NULL tail gives EmptyCollection and a freed tail gives Fault. Without remove, a live tail's element is returned and the list is unchanged. With remove on a list whose head is tail, the element is returned and both ends become NULL. Otherwise, with remove, it faults exactly when tail is not on the chain from head. This covers a NULL head, where the search dereferences NULL, and a search that runs off the chain. Every other failure with a live tail is Fault. When it succeeds, the chain is cut just before tail: the kept chain is a prefix of the old one and holds the matching prefix of s, the predecessor becomes tail with `next` NULL, head is kept, and the heap is the old one with only that `next` changed and the old tail freed, so unreached nodes are untouched. Every successful removal drops length by 1 and frees exactly the tail node. On a valid list it succeeds exactly when the list is non-empty, returns the last element, and with remove stays valid and holds s[..\|s\|-1]. |
| TypedList.ForEach | samples/common/list.c:142-149 | The iterator is given the elements in head-to-tail order. The visited elements are a prefix of the contents, every one but the last was accepted, and the walk stops early only right after a rejection. |
| TypedList.Clear | samples/common/list.c:263-279 | Releases the elements in list order. The result is the same record with head NULL, the reachable nodes freed, and length lowered by their number. tail, the width, the callback and every node the chain does not reach are unchanged. On a list whose head is already NULL it changes nothing, which makes Clear idempotent. On a valid list, length ends at 0 and the heap is empty. |
| TypedList.ClearCorrected | samples/common/list.c:263-279 | The same release and the same record as list_clear, with tail reset as well. A valid list becomes a valid empty list. |
| TypedList.Destroy | samples/common/list.c:40-55 | Releases every reachable element in order. The nodes left behind are exactly the ones the chain did not reach, with their contents unchanged. There are none when the list was valid. |
| TypedList.Size | samples/common/list.c:291-294 | On a valid list, the size is the number of elements. |
| ListProperties.AppendEach | samples/common/list.c:105-124 | Appending e1..en to a valid list keeps it valid, puts e1..en after its elements in call order, and adds n to its size. |
| ListProperties.PrependEach | samples/common/list.c:73-89 | Prepending e1..en to a valid list keeps it valid, puts en..e1 before its elements, and adds n to its size. |
| ListProperties.DrainHeads | samples/common/list.c:163-183 | Removing heads with the corrected list_head until the list reports empty yields the elements in head order. It leaves a valid list of size 0 with head and tail NULL. |
| ListProperties.DrainTails | samples/common/list.c:198-244 | Removing tails until the list reports empty yields the elements in tail-to-head order, and leaves a valid empty list. |
| ListProperties.AppendThenHeadOnEmpty | samples/common/list.c:114-117 | Appending e to an empty valid list and then reading the head without remove returns e, and the size stays 1. |
| ListProperties.PrependThenHead | samples/common/list.c:168-183 | Prepending e and then removing the head returns e and restores the contents and size. The result is valid exactly when the list was non-empty. |
| ListProperties.AppendThenTail | samples/common/list.c:198-200 | Appending e and then reading the tail returns e. The list stays valid and holds s + [e]. |
| ListProperties.FourByteScenario | samples/common/list.c:194-244 | With width 4, append [1,2,3,4] and [5,6,7,8]. The size is 2. Reading the head gives [1,2,3,4] and the size stays 2. Removing the tail gives [5,6,7,8], the size becomes 1, and head == tail holds [1,2,3,4]. |
| ListProperties.StopPrefixStops | samples/common/list.c:145-149 | The reference prefix, "up to and including the first rejected element", stops at the first rejection. |
| ListProperties.StopsAtFirstFalseUnique | samples/common/list.c:145-149 | Only one prefix does so, so list_for_each visits exactly the reference prefix. |
| ListProperties.FullTraversal | samples/common/list.c:145-149 | An iterator that accepts every element sees all of them. |
| ListProperties.AppendThenTraverse | samples/common/list.c:142-149 | Appending e1..en to an empty list and traversing it with an always-continuing iterator visits e1..en in that order. |
| DanglingTail.HeadRemoveLeavesTailDangling | samples/common/list.c:168-183 | Removing the only node of a valid list with list_head returns its element, sets head to NULL and length to 0, and frees the node. tail still points at the freed node, so the list is no longer valid. |
| DanglingTail.HeadRemoveThenTail | samples/common/list.c:198-200 | After that removal, a list_prepend to any other address followed by list_tail reads the freed node (Fault). |
| DanglingTail.HeadRemoveThenTailCorrected | samples/common/list.c:198-200 | The same calls with the corrected removal return the prepended element. |
| DanglingTail.ClearLeavesTailDangling | samples/common/list.c:263-279 | Clearing a valid non-empty list frees every node and zeroes length. tail still points at the old last node, so the list is no longer valid. |
| DanglingTail.ClearThenTail | samples/common/list.c:84-87 | After list_clear, list_prepend sees tail non-NULL and keeps it. list_tail then reads the freed node (Fault). |
| DanglingTail.ClearThenTailCorrected | samples/common/list.c:84-87 | With the corrected clear, the prepended node becomes tail, and list_tail returns it. |

## Left out

- The pthread mutex and its attribute are not modelled. This covers lock, unlock and initialisation, and every error path they lead to (list.c:18-25 and the `goto error` exits after lock calls). They have no sequential meaning.
- `perror` output is not modelled; every failure is a `Result` instead.
- TypedList.New: does not model the `calloc` and pthread initialisation failures of the mutex and its attribute (list.c:18-25). Those are lock plumbing.
- TypedList.Prepend: a failed data allocation after a successful node allocation leaks the node (list.c:73-77). The model treats both allocations as one `calloc` answer that leaves the list unchanged.
- TypedList.Append: the same node leak on a failed data allocation (list.c:105-109) is not modelled.
- The release callback `freeFn` is stored in the list, but it is never run. Clear and Destroy hand the released elements back as a sequence in release order. Head and Tail with remove just free the node. Running the callback is a call into code that is not part of this model.
- TypedList.ForEach: the iterator is a pure function `T -> bool`. The C iterator receives a pointer to the node's storage and could write through it. In-place mutation by a foreign callback is not modelled.
- The element width is not checked against the caller's buffer. Elements are whole values, so a caller buffer shorter than `elementSize` (a `memcpy` overread in C) cannot be expressed.
- TypedList.Size: `length` is an unbounded integer. The C `int` could in principle overflow after 2^31 insertions; 32-bit wrap-around is not modelled.
- The `volatile` unsynchronised read in `list_size` and the concurrent-append scenario are not modelled. They only mean something under concurrency.
- TypedList.Destroy: it returns the released elements and the leftover nodes, not a list, because the list must not be used after `list_destroy`. Unlike `list_clear`, the C loop does not decrement `length`, and nothing can observe that.
- The operations are modelled from states where the head chain is well formed (`Shaped`). `New` gives such a state and every operation keeps it, so no reachable state is left out.
- `samples/common/runner.c` and `include/runner.h` are not part of this model. They spawn a shell command and only use `list_append` as a sink.

## Findings

| source | as written | input that shows it | evidently intended | confidence | as-written member | corrected member |
|---|---|---|---|---|---|---|
| samples/common/list.c:168-183 | `list_head` with remove advances `head` and decrements `length`, but never clears `tail`. Removing the last node leaves `tail` on the freed node. `list_prepend` (list.c:84) then keeps that `tail`, and `list_tail` (list.c:200) reads the freed node. | A valid one-element list. Call `list_head(remove)`, then `list_prepend(e)` to an address other than the freed one, then `list_tail`. | Set `tail` to NULL when `head` becomes NULL, so that head NULL ⇔ tail NULL ⇔ length 0 keeps holding. | high (proved on the model; not executed) | DanglingTail.HeadRemoveThenTail | TypedList.HeadCorrected |
| samples/common/list.c:263-279 | `list_clear` frees every node and sets `head` to NULL, but leaves `tail` pointing at the old last node. The same `list_prepend` / `list_tail` sequence then reads freed memory. | Any valid non-empty list. Call `list_clear`, then `list_prepend(e)`, then `list_tail`. | Reset `tail` to NULL after the loop, leaving the list empty and reusable. | high (proved on the model; not executed) | DanglingTail.ClearThenTail | TypedList.ClearCorrected |

=== FILE: dangling_tail.dfy ===
/** The dangling tail of list.c. list_head (remove) and list_clear can leave
    the list with no nodes but with `tail` still holding the address of a
    freed node. list_prepend then keeps that `tail`, because it only sets
    `tail` when it is NULL, and list_tail reads through it. Each defect is
    shown here with the as-written operations and, next to it, the same
    sequence of calls with the corrected ones. */
module DanglingTail {
  import opened Outcomes
  import opened Heap
  import opened TypedList

  /** Removing the only node with list_head returns its element, empties
      the chain, zeroes length and frees the node, but keeps tail on the
      node that was just freed. */
  lemma HeadRemoveLeavesTailDangling<T>(l: List<T>)
    requires Valid(l) && |Elements(l)| == 1
    ensures var r := Head(l, true);
      && r.Ok? && r.value.1 == Elements(l)[0]
      && r.value.0.head == Null && r.value.0.length == 0 && r.value.0.heap == map[]
      && r.value.0.tail == l.tail && l.tail.Addr? && l.tail.addr !in r.value.0.heap
      && !Valid(r.value.0)
  {
    ValidEnds(l);
  }

  /** list_head(remove) on a one-node list, then list_prepend, then
      list_tail: when the allocator places the new node anywhere but at the
      freed address, list_tail reads the freed node. */
  method HeadRemoveThenTail<T>(l: List<T>, e: T, alloc: Alloc) returns (r: Result<(List<T>, T)>)
    requires Valid(l) && |Elements(l)| == 1
    requires alloc.At? && FreshFor(l, alloc)
    ensures r == Err(Fault)
  {
    ValidEnds(l);
    var emptied := Head(l, true).value.0;
    var refilled := Prepend(emptied, e, alloc).value;
    r := Tail(refilled, false);
  }

  /** The same calls with the corrected list_head: list_tail returns the
      element just prepended. */
  method HeadRemoveThenTailCorrected<T>(l: List<T>, e: T, alloc: Alloc) returns (r: Result<(List<T>, T)>)
    requires Valid(l) && |Elements(l)| == 1
    requires alloc.At? && FreshFor(l, alloc)
    ensures r.Ok? && r.value.1 == e
  {
    var emptied := HeadCorrected(l, true).value.0;
    var refilled := Prepend(emptied, e, alloc).value;
    r := Tail(refilled, false);
  }

  /** list_clear on a valid non-empty list frees every node and zeroes
      length, but keeps tail on the node that was last. */
  method ClearLeavesTailDangling<T>(l: List<T>) returns (r: List<T>)
    requires Valid(l) && Elements(l) != []
    ensures r.head == Null && r.length == 0 && r.heap == map[]
    ensures r.tail == l.tail && l.tail.Addr? && !Valid(r)
  {
    ValidEnds(l);
    var released;
    r, released := Clear(l);
  }

  /** list_clear on a non-empty list, then list_prepend, then list_tail:
      list_tail reads the freed node that was the last one before the clear. */
  method ClearThenTail<T>(l: List<T>, e: T, alloc: Alloc) returns (r: Result<(List<T>, T)>)
    requires Valid(l) && Elements(l) != []
    requires alloc.At? && FreshFor(l, alloc)
    ensures r == Err(Fault)
  {
    ValidEnds(l);
    var cleared, _ := Clear(l);
    var refilled := Prepend(cleared, e, alloc).value;
    r := Tail(refilled, false);
  }

  /** The same calls with the corrected list_clear: list_tail returns the
      element just prepended. */
  method ClearThenTailCorrected<T>(l: List<T>, e: T, alloc: Alloc) returns (r: Result<(List<T>, T)>)
    requires Valid(l) && Elements(l) != []
    requires alloc.At? && FreshFor(l, alloc)
    ensures r.Ok? && r.value.1 == e
  {
    var cleared, _ := ClearCorrected(l);
    var refilled := Prepend(cleared, e, alloc).value;
    r := Tail(refilled, false);
  }
}

=== FILE: heap.dfy ===
/** The memory the list lives in: heap-allocated `listNode` records
    (include/list.h) addressed by number, and the walk along their
    `next` links that gives a list its contents. */
module Heap {
  import opened Outcomes

  /** A node pointer: NULL or the address of a heap cell. */
  datatype Ptr = Null | Addr(addr: nat)

  /** `listNode`: the element the node owns and its `next` link. */
  datatype Node<T> = Node(data: T, next: Ptr)

  /** The live (allocated, not yet freed) nodes, by address. Freeing a
      node removes its address; a later allocation may reuse it. */
  type Store<T> = map<nat, Node<T>>

  /** The pointer to the i-th node of a chain, NULL past its end. */
  function PtrAt(ns: seq<nat>, i: nat): Ptr {
    if i < |ns| then Addr(ns[i]) else Null
  }

  /** The pointer to the last node of a chain, NULL for an empty chain. */
  function LastPtr(ns: seq<nat>): Ptr {
    if ns == [] then Null else Addr(ns[|ns| - 1])
  }

  predicate Distinct(ns: seq<nat>) {
    forall i, j :: 0 <= i < j < |ns| ==> ns[i] != ns[j]
  }

  /** The addresses a chain visits. */
  function Addrs(ns: seq<nat>): set<nat> {
    set a | a in ns
  }

  lemma AddrsCons(a: nat, ns: seq<nat>)
    ensures Addrs([a] + ns) == {a} + Addrs(ns)
  {
  }

  lemma AddrsSnoc(ns: seq<nat>, a: nat)
    ensures Addrs(ns + [a]) == Addrs(ns) + {a}
  {
  }

  /** Freeing the nodes of a chain one at a time, from its first node. */
  lemma MinusNext<T>(h: Store<T>, ns: seq<nat>, i: nat)
    requires i < |ns|
    ensures (h - Addrs(ns[..i])) - {ns[i]} == h - Addrs(ns[..i + 1])
  {
    assert ns[..i + 1] == ns[..i] + [ns[i]];
    AddrsSnoc(ns[..i], ns[i]);
  }

  /** Dropping the first or the last address of a chain without repeats
      drops it from the chain's set of addresses. */
  lemma DropFirst(ns: seq<nat>)
    requires Distinct(ns) && |ns| > 0
    ensures Addrs(ns) - {ns[0]} == Addrs(ns[1..])
  {
    assert ns == [ns[0]] + ns[1..];
    AddrsCons(ns[0], ns[1..]);
    assert ns[0] !in ns[1..];
  }

  lemma DropLast(ns: seq<nat>)
    requires Distinct(ns) && |ns| > 0
    ensures Addrs(ns) - {ns[|ns| - 1]} == Addrs(ns[..|ns| - 1])
  {
    var n := |ns|;
    assert ns == ns[..n - 1] + [ns[n - 1]];
    AddrsSnoc(ns[..n - 1], ns[n - 1]);
    assert ns[n - 1] !in ns[..n - 1];
  }

  /** The store with the `next` link of the node at x set to q. */
  function Redirect<T>(h: Store<T>, x: nat, q: Ptr): Store<T>
    requires x in h
  {
    h[x := h[x].(next := q)]
  }

  /** Follows `next` links from p. The result is Some(ns) when the walk meets
      NULL after visiting the live nodes ns; it is None when the walk reaches
      a freed address or comes back to a node it has already visited (each
      visited node is dropped from the store the rest of the walk sees). */
  function Reach<T>(h: Store<T>, p: Ptr): (r: Option<seq<nat>>)
    ensures r.Some? ==> p == PtrAt(r.value, 0)
    decreases h.Keys
  {
    match p
    case Null => Some([])
    case Addr(a) =>
      if a !in h then None
      else
        match Reach(h - {a}, h[a].next)
        case None => None
        case Some(rest) => Some([a] + rest)
  }

  /** A chain found by Reach visits live nodes only, each of them once. */
  lemma {:induction false} ReachShape<T>(h: Store<T>, p: Ptr)
    requires Reach(h, p).Some?
    ensures Distinct(Reach(h, p).value)
    ensures forall i :: 0 <= i < |Reach(h, p).value| ==> Reach(h, p).value[i] in h
    decreases h.Keys
  {
    match p
    case Null =>
    case Addr(a) =>
      ReachShape(h - {a}, h[a].next);
  }

  /** The i-th node of the chain ns is live and links to the next one, or
      to NULL when it is the last. */
  predicate LinkedAt<T>(h: Store<T>, ns: seq<nat>, i: nat)
    requires i < |ns|
  {
    ns[i] in h && h[ns[i]].next == PtrAt(ns, i + 1)
  }

  /** Along a chain found by Reach, each node links to the next one and the
      last links to NULL. */
  lemma {:induction false} ReachLinks<T>(h: Store<T>, p: Ptr, ns: seq<nat>)
    requires Reach(h, p) == Some(ns)
    ensures forall i :: 0 <= i < |ns| ==> LinkedAt(h, ns, i)
    decreases |ns|
  {
    match p
    case Null =>
    case Addr(a) =>
      var rest := ns[1..];
      assert Reach(h - {a}, h[a].next) == Some(rest);
      ReachLinks(h - {a}, h[a].next, rest);
      forall i | 0 <= i < |ns|
        ensures LinkedAt(h, ns, i)
      {
        if i > 0 {
          assert LinkedAt(h - {a}, rest, i - 1);
          assert ns[i] == rest[i - 1];
        }
      }
  }

  /** A walk depends only on the nodes it visits: a store that holds the
      same nodes at those addresses gives the same chain. */
  lemma {:induction false} ReachFrame<T>(h: Store<T>, h': Store<T>, p: Ptr, ns: seq<nat>)
    requires Reach(h, p) == Some(ns)
    requires forall a :: a in ns ==> a in h && a in h' && h'[a] == h[a]
    ensures Reach(h', p) == Some(ns)
    decreases |ns|
  {
    match p
    case Null =>
    case Addr(a) =>
      var rest := ns[1..];
      assert Reach(h - {a}, h[a].next) == Some(rest);
      ReachShape(h, p);
      forall b | b in rest
        ensures b in h' - {a} && (h' - {a})[b] == (h - {a})[b]
      {
      }
      ReachFrame(h - {a}, h' - {a}, h[a].next, rest);
  }

  lemma RedirectMinus<T>(h: Store<T>, a: nat, x: nat, q: Ptr)
    requires x in h && a != x
    ensures Redirect(h - {a}, x, q) == Redirect(h, x, q) - {a}
  {
  }

  lemma MinusMinus<T>(h: Store<T>, a: nat, s: set<nat>)
    ensures (h - {a}) - s == h - ({a} + s)
  {
  }

  /** A live node followed by a chain is a chain. */
  lemma ReachCons<T>(h: Store<T>, a: nat, rs: seq<nat>)
    requires a in h && Reach(h - {a}, h[a].next) == Some(rs)
    ensures Reach(h, Addr(a)) == Some([a] + rs)
  {
  }

  /** Re-linking the i-th node of a chain to q keeps the chain up to that
      node and continues with whatever q leads to among the other nodes. */
  lemma {:induction false} ReachRedirect<T>(h: Store<T>, p: Ptr, ns: seq<nat>, i: nat, q: Ptr, rs: seq<nat>)
    requires Reach(h, p) == Some(ns)
    requires i < |ns|
    requires ns[i] in h
    requires Reach(Redirect(h, ns[i], q) - Addrs(ns[..i + 1]), q) == Some(rs)
    ensures Reach(Redirect(h, ns[i], q), p) == Some(ns[..i + 1] + rs)
    decreases i, 1
  {
    if i == 0 {
      var a := ns[0];
      assert ns[..1] == [a];
      assert Addrs(ns[..1]) == {a};
      ReachCons(Redirect(h, a, q), a, rs);
    } else {
      ReachRedirectLater(h, p, ns, i, q, rs);
    }
  }

  /** ReachRedirect for a node past the first: the first node keeps its
      link, and the rest of the chain is re-linked by induction. */
  lemma {:induction false} ReachRedirectLater<T>(h: Store<T>, p: Ptr, ns: seq<nat>, i: nat, q: Ptr, rs: seq<nat>)
    requires Reach(h, p) == Some(ns)
    requires 0 < i < |ns|
    requires ns[i] in h
    requires Reach(Redirect(h, ns[i], q) - Addrs(ns[..i + 1]), q) == Some(rs)
    ensures Reach(Redirect(h, ns[i], q), p) == Some(ns[..i + 1] + rs)
    decreases i, 0
  {
    ReachShape(h, p);
    var a, x, rest := ns[0], ns[i], ns[1..];
    var h' := Redirect(h, x, q);
    assert Reach(h - {a}, h[a].next) == Some(rest);
    assert rest[i - 1] == x && a != x;
    RedirectMinus(h, a, x, q);
    assert ns[..i + 1] == [a] + rest[..i];
    AddrsCons(a, rest[..i]);
    MinusMinus(h', a, Addrs(rest[..i]));
    ReachRedirect(h - {a}, h[a].next, rest, i - 1, q, rs);
    ReachCons(h', a, rest[..i] + rs);
    assert ns[..i + 1] + rs == [a] + (rest[..i] + rs);
  }
}

=== FILE: list.dfy ===
/** The list of samples/common/list.c with its lock calls taken out: a
    `list` record (include/list.h) over nodes in a `Store`, and one member
    per function of list.c. Elements are values of a type T: the C code's
    byte copy of `elementSize` bytes into and out of node storage becomes a
    copy of the value, so the list never shares storage with its caller.
    The operations are modelled as written; where list.c leaves `tail` on a
    freed node, a corrected operation follows the as-written one. */
module TypedList {
  import opened Outcomes
  import opened Heap
  import opened Sequences

  /** The `list` record without its mutex and mutex attribute: the node
      count, the fixed element width, the two end pointers, the release
      callback (None for plain `free`), and the nodes the list has
      allocated. The callback is kept but its effects are not modelled. */
  datatype List<!T> = List(length: int, elementSize: int, head: Ptr, tail: Ptr, freeFn: Option<T -> ()>, heap: Store<T>)

  /** What calloc answers when a node and its data buffer are requested:
      failure, or a fresh address. */
  datatype Alloc = OutOfMemory | At(addr: nat)

  /** calloc never hands out the address of a live node. */
  predicate FreshFor<T>(l: List<T>, alloc: Alloc) {
    alloc.At? ==> alloc.addr !in l.heap
  }

  /** What every operation of list.c keeps, the defect included: a positive
      element width and a head chain that ends at NULL through live nodes. */
  predicate Shaped<T>(l: List<T>) {
    l.elementSize > 0 && Reach(l.heap, l.head).Some?
  }

  /** The addresses of the nodes reachable from head, in order. */
  function Nodes<T>(l: List<T>): seq<nat>
    requires Shaped(l)
  {
    Reach(l.heap, l.head).value
  }

  /** The abstract contents: the data of the nodes reachable from head. */
  function Elements<T>(l: List<T>): (s: seq<T>)
    requires Shaped(l)
    ensures |s| == |Nodes(l)|
  {
    var ns := Nodes(l);
    ReachShape(l.heap, l.head);
    seq(|ns|, i requires 0 <= i < |ns| => l.heap[ns[i]].data)
  }

  /** The invariant the list is meant to keep: length counts the reachable
      nodes, tail is the last of them (NULL when there is none), and the
      list owns exactly those nodes. */
  predicate Valid<T>(l: List<T>) {
    && Shaped(l)
    && l.length == |Nodes(l)|
    && l.tail == LastPtr(Nodes(l))
    && l.heap.Keys == Addrs(Nodes(l))
  }

  /** The ends and the length of a valid list agree with each other. */
  lemma ValidEnds<T>(l: List<T>)
    requires Valid(l)
    ensures l.head == Null <==> l.tail == Null
    ensures l.head == Null <==> l.length == 0
    ensures l.length == 1 ==> l.head == l.tail
    ensures l.tail != Null ==> l.tail.addr in l.heap && l.heap[l.tail.addr].next == Null
    ensures l.tail != Null ==> Elements(l) != [] && Elements(l)[|Elements(l)| - 1] == l.heap[l.tail.addr].data
  {
    var ns := Nodes(l);
    ReachLinks(l.heap, l.head, ns);
    if ns != [] {
      assert LinkedAt(l.heap, ns, |ns| - 1);
    }
  }

  // ---------------------------------------------------------------- list_new

  /** list_new: rejects a non-positive element width, otherwise an empty
      list that keeps the given release callback. */
  function New<T>(elementSize: int, freeFn: Option<T -> ()>): (r: Result<List<T>>)
    ensures r.Err? <==> elementSize <= 0
    ensures r.Err? ==> r.error == InvalidArgument
    ensures r.Ok? ==> Valid(r.value) && Elements(r.value) == []
    ensures r.Ok? ==> r.value.elementSize == elementSize && r.value.length == 0
    ensures r.Ok? ==> r.value.head == Null && r.value.tail == Null
    ensures r.Ok? ==> r.value.freeFn == freeFn
  {
    if elementSize <= 0 then Err(InvalidArgument)
    else Ok(List(0, elementSize, Null, Null, freeFn, map[]))
  }

  // ------------------------------------------------------------ list_prepend

  lemma PrependChain<T>(l: List<T>, n: nat, d: T)
    requires Shaped(l) && n !in l.heap
    ensures Reach(l.heap[n := Node(d, l.head)], Addr(n)) == Some([n] + Nodes(l))
  {
    assert l.heap[n := Node(d, l.head)] - {n} == l.heap;
  }

  /** list_prepend: a copy of the caller's element becomes the new head; tail
      is set to it only when tail was NULL. */
  function Prepend<T>(l: List<T>, e: T, alloc: Alloc): (r: Result<List<T>>)
    requires Shaped(l) && FreshFor(l, alloc)
    ensures r.Err? <==> alloc == OutOfMemory
    ensures r.Err? ==> r.error == ResourceExhausted
    ensures r.Ok? ==> Shaped(r.value) && r.value.elementSize == l.elementSize && r.value.freeFn == l.freeFn
    ensures r.Ok? ==> Elements(r.value) == [e] + Elements(l)
    ensures r.Ok? ==> r.value.length == l.length + 1 && r.value.head == Addr(alloc.addr)
    ensures r.Ok? ==> r.value.tail == (if l.tail == Null then r.value.head else l.tail)
    ensures r.Ok? ==> r.value.heap == l.heap[alloc.addr := Node(e, l.head)]
    ensures r.Ok? && Valid(l) ==> Valid(r.value)
  {
    match alloc
    case OutOfMemory => Err(ResourceExhausted)
    case At(n) =>
      var head := Addr(n);
      var l' := l.(length := l.length + 1,
                   head := head,
                   tail := if l.tail == Null then head else l.tail,
                   heap := l.heap[n := Node(e, l.head)]);
      PrependChain(l, n, e);
      ReachShape(l.heap, l.head);
      assert Nodes(l') == [n] + Nodes(l);
      assert Elements(l') == [e] + Elements(l);
      Ok(l')
  }

  // ------------------------------------------------------------- list_append

  /** Linking a fresh last node n behind the node at t: the chain is cut
      after t and ends with n; when t is not on the chain, it is unchanged. */
  lemma AppendChain<T>(l: List<T>, n: nat, d: T, t: nat)
    requires Shaped(l) && n !in l.heap && t in l.heap
    ensures Reach(Redirect(l.heap[n := Node(d, Null)], t, Addr(n)), l.head).Some?
    ensures LastPtr(Nodes(l)) == Addr(t) ==>
              Reach(Redirect(l.heap[n := Node(d, Null)], t, Addr(n)), l.head) == Some(Nodes(l) + [n])
  {
    var ns := Nodes(l);
    ReachShape(l.heap, l.head);
    var h1 := l.heap[n := Node(d, Null)];
    ReachFrame(l.heap, h1, l.head, ns);
    var h2 := Redirect(h1, t, Addr(n));
    if i :| 0 <= i < |ns| && ns[i] == t {
      var cut := Addrs(ns[..i + 1]);
      assert n !in cut;
      assert Reach(h2 - cut, Addr(n)) == Some([n]) by {
        assert t != n && n in h2 - cut && (h2 - cut)[n].next == Null;
        assert Reach((h2 - cut) - {n}, Null) == Some([]);
        assert [n] + [] == [n];
      }
      ReachRedirect(h1, l.head, ns, i, Addr(n), [n]);
      if LastPtr(ns) == Addr(t) {
        assert i == |ns| - 1;
        assert ns[..i + 1] == ns;
      }
    } else {
      ReachFrame(h1, h2, l.head, ns);
    }
  }

  /** The list after list_append has made a new node n, holding d, both head
      and tail of a list whose length is 0. */
  function FirstNode<T>(l: List<T>, n: nat, d: T): List<T> {
    l.(length := 1, head := Addr(n), tail := Addr(n), heap := l.heap[n := Node(d, Null)])
  }

  lemma FirstNodeShape<T>(l: List<T>, n: nat, d: T)
    requires Shaped(l) && n !in l.heap
    ensures Shaped(FirstNode(l, n, d)) && Nodes(FirstNode(l, n, d)) == [n]
    ensures Valid(l) && l.length == 0 ==> Valid(FirstNode(l, n, d)) && Elements(FirstNode(l, n, d)) == Elements(l) + [d]
  {
    var l' := FirstNode(l, n, d);
    assert Reach(l'.heap - {n}, Null) == Some([]);
    assert Nodes(l') == [n];
    if Valid(l) && l.length == 0 {
      assert l.heap == map[];
    }
  }

  /** The list after list_append has linked a new node n, holding d, behind
      the node at tail. */
  function LinkAfterTail<T>(l: List<T>, n: nat, d: T): List<T>
    requires l.tail.Addr? && l.tail.addr in l.heap
  {
    var t := l.tail.addr;
    l.(length := l.length + 1, tail := Addr(n), heap := Redirect(l.heap[n := Node(d, Null)], t, Addr(n)))
  }

  lemma LinkAfterTailShape<T>(l: List<T>, n: nat, d: T)
    requires Shaped(l) && n !in l.heap && l.tail.Addr? && l.tail.addr in l.heap
    ensures Shaped(LinkAfterTail(l, n, d))
    ensures Valid(l) ==> Valid(LinkAfterTail(l, n, d)) && Elements(LinkAfterTail(l, n, d)) == Elements(l) + [d]
  {
    var l' := LinkAfterTail(l, n, d);
    AppendChain(l, n, d, l.tail.addr);
    if Valid(l) {
      ReachShape(l.heap, l.head);
      var ns := Nodes(l);
      assert Nodes(l') == ns + [n];
      AddrsSnoc(ns, n);
      assert Elements(l') == Elements(l) + [d];
    }
  }

  /** list_append: a copy of the caller's element becomes the new last
      node. An empty list is recognised by length == 0, not by tail. */
  function Append<T>(l: List<T>, e: T, alloc: Alloc): (r: Result<List<T>>)
    requires Shaped(l) && FreshFor(l, alloc)
    ensures alloc == OutOfMemory ==> r == Err(ResourceExhausted)
    ensures alloc.At? && l.length != 0 && (l.tail == Null || l.tail.addr !in l.heap) ==> r == Err(Fault)
    ensures r.Ok? ==> Shaped(r.value) && r.value.elementSize == l.elementSize && r.value.freeFn == l.freeFn
    ensures r.Ok? ==> r.value.length == l.length + 1 && r.value.tail == Addr(alloc.addr)
    ensures r.Ok? ==> r.value.heap.Keys == l.heap.Keys + {alloc.addr}
    ensures r.Ok? ==> r.value.heap[alloc.addr] == Node(e, Null)
    ensures alloc.At? && l.length == 0 ==>
      && r.Ok? && r.value.head == Addr(alloc.addr) && Nodes(r.value) == [alloc.addr] && Elements(r.value) == [e]
      && forall a :: a in l.heap ==> r.value.heap[a] == l.heap[a]
    ensures alloc.At? && l.length != 0 && l.tail.Addr? && l.tail.addr in l.heap ==>
      && r.Ok? && r.value.head == l.head
      && r.value.heap[l.tail.addr] == l.heap[l.tail.addr].(next := Addr(alloc.addr))
      && forall a :: a in l.heap && a != l.tail.addr ==> r.value.heap[a] == l.heap[a]
    ensures Valid(l) ==> (r.Ok? <==> alloc.At?)
    ensures r.Ok? && Valid(l) ==> Valid(r.value) && Elements(r.value) == Elements(l) + [e]
  {
    match alloc
    case OutOfMemory => Err(ResourceExhausted)
    case At(n) =>
      if l.length == 0 then
        FirstNodeShape(l, n, e);
        Ok(FirstNode(l, n, e))
      else if l.tail == Null || l.tail.addr !in l.heap then Err(Fault)
      else
        LinkAfterTailShape(l, n, e);
        Ok(LinkAfterTail(l, n, e))
  }

  // --------------------------------------------------------------- list_head

  /** The list after list_head has unlinked and freed its head node. */
  function PopHead<T>(l: List<T>): List<T>
    requires Shaped(l) && l.head != Null
  {
    var a := l.head.addr;
    l.(head := l.heap[a].next, length := l.length - 1, heap := l.heap - {a})
  }

  lemma PopHeadShape<T>(l: List<T>)
    requires Shaped(l) && l.head != Null
    ensures Shaped(PopHead(l)) && Nodes(PopHead(l)) == Nodes(l)[1..]
    ensures Elements(PopHead(l)) == Elements(l)[1..]
  {
    ReachShape(l.heap, l.head);
    var l' := PopHead(l);
    assert Nodes(l') == Nodes(l)[1..];
    assert Elements(l') == Elements(l)[1..] by {
      forall k | 0 <= k < |Nodes(l')|
        ensures Elements(l')[k] == Elements(l)[k + 1]
      {
        assert Nodes(l')[k] == Nodes(l)[k + 1];
      }
    }
  }

  lemma PopHeadValid<T>(l: List<T>)
    requires Valid(l) && |Nodes(l)| > 1
    ensures Valid(PopHead(l))
  {
    var ns := Nodes(l);
    PopHeadShape(l);
    ReachShape(l.heap, l.head);
    var l' := PopHead(l);
    var rest := ns[1..];
    assert Shaped(l') && Nodes(l') == rest;
    assert l'.length == |rest|;
    assert l'.tail == LastPtr(rest);
    assert l'.heap.Keys == Addrs(rest) by {
      assert l'.heap.Keys == l.heap.Keys - {ns[0]};
      DropFirst(ns);
    }
  }

  /** list_head: copies the head's element out; with remove, unlinks and
      frees the head node and decrements length, leaving tail where it was. */
  function Head<T>(l: List<T>, remove: bool): (r: Result<(List<T>, T)>)
    requires Shaped(l)
    ensures r.Err? <==> l.head == Null
    ensures r.Err? ==> r.error == EmptyCollection
    ensures r.Ok? ==> r.value.1 == Elements(l)[0]
    ensures r.Ok? && !remove ==> r.value.0 == l
    ensures r.Ok? && remove ==> Shaped(r.value.0) && r.value.0.elementSize == l.elementSize && r.value.0.freeFn == l.freeFn
    ensures r.Ok? && remove ==> Elements(r.value.0) == Elements(l)[1..]
    ensures r.Ok? && remove ==> r.value.0.head == l.heap[l.head.addr].next
    ensures r.Ok? && remove ==> r.value.0.length == l.length - 1
    ensures r.Ok? && remove ==> r.value.0.heap == l.heap - {l.head.addr}
    ensures r.Ok? && remove ==> r.value.0.tail == l.tail
    ensures r.Ok? && remove && Valid(l) && |Elements(l)| > 1 ==> Valid(r.value.0)
  {
    if l.head == Null then Err(EmptyCollection)
    else
      var x := l.heap[l.head.addr].data;
      if !remove then Ok((l, x))
      else
        PopHeadShape(l);
        if Valid(l) && |Elements(l)| > 1 then PopHeadValid(l); Ok((PopHead(l), x))
        else Ok((PopHead(l), x))
  }

  /** list_head with the tail reset the C code omits: when the removed head
      was the last node, tail becomes NULL as well. */
  function HeadCorrected<T>(l: List<T>, remove: bool): (r: Result<(List<T>, T)>)
    requires Shaped(l)
    ensures r.Err? <==> l.head == Null
    ensures r.Err? ==> r.error == EmptyCollection
    ensures Valid(l) ==> (r.Ok? <==> Elements(l) != [])
    ensures r.Ok? ==> r.value.1 == Elements(l)[0]
    ensures r.Ok? && !remove ==> r.value.0 == l
    ensures r.Ok? && remove ==> Shaped(r.value.0) && Elements(r.value.0) == Elements(l)[1..]
    ensures r.Ok? && remove ==> r.value.0.freeFn == l.freeFn && r.value.0.elementSize == l.elementSize
    ensures r.Ok? && remove ==> r.value.0.length == l.length - 1
    ensures r.Ok? && remove ==> r.value.0.head == l.heap[l.head.addr].next
    ensures r.Ok? && remove ==> r.value.0.heap == l.heap - {l.head.addr}
    ensures r.Ok? && remove ==> r.value.0.tail == (if r.value.0.head == Null then Null else l.tail)
    ensures r.Ok? && remove && Valid(l) ==> Valid(r.value.0)
  {
    match Head(l, remove)
    case Err(e) => Err(e)
    case Ok((l', x)) =>
      if l'.head == Null then Ok((l'.(tail := Null), x)) else Ok((l', x))
  }

  // --------------------------------------------------------------- list_tail

  /** The list after list_tail has made the node at c, the one before the
      tail node t, the new tail: c ends the chain and t is freed. */
  function CutBefore<T>(l: List<T>, c: nat, t: nat): List<T>
    requires c in l.heap
  {
    l.(tail := Addr(c), heap := Redirect(l.heap, c, Null) - {t}, length := l.length - 1)
  }

  lemma CutBeforeShape<T>(l: List<T>, i: nat)
    requires Shaped(l) && i + 1 < |Nodes(l)|
    ensures Nodes(l)[i] in l.heap
    ensures Shaped(CutBefore(l, Nodes(l)[i], Nodes(l)[i + 1]))
    ensures Nodes(CutBefore(l, Nodes(l)[i], Nodes(l)[i + 1])) == Nodes(l)[..i + 1]
    ensures CutBefore(l, Nodes(l)[i], Nodes(l)[i + 1]).tail == LastPtr(Nodes(l)[..i + 1])
    ensures CutBefore(l, Nodes(l)[i], Nodes(l)[i + 1]).heap.Keys == l.heap.Keys - {Nodes(l)[i + 1]}
    ensures Elements(CutBefore(l, Nodes(l)[i], Nodes(l)[i + 1])) == Elements(l)[..i + 1]
  {
    var ns := Nodes(l);
    ReachShape(l.heap, l.head);
    var c, t := ns[i], ns[i + 1];
    var heap := Redirect(l.heap, c, Null);
    var cutChain := Addrs(ns[..i + 1]);
    assert Reach(heap - cutChain, Null) == Some([]);
    ReachRedirect(l.heap, l.head, ns, i, Null, []);
    var kept := ns[..i + 1];
    assert kept + [] == kept;
    ReachFrame(heap, heap - {t}, l.head, kept);
    var l' := CutBefore(l, c, t);
    forall k | 0 <= k <= i
      ensures Elements(l')[k] == Elements(l)[k]
    {
      assert kept[k] != t;
    }
  }

  lemma CutBeforeValid<T>(l: List<T>)
    requires Valid(l) && |Nodes(l)| >= 2
    ensures var n := |Nodes(l)|;
      var l' := CutBefore(l, Nodes(l)[n - 2], Nodes(l)[n - 1]);
      Valid(l') && Elements(l') == Elements(l)[..n - 1]
  {
    var ns := Nodes(l);
    var n := |ns|;
    CutBeforeShape(l, n - 2);
    ReachShape(l.heap, l.head);
    var l' := CutBefore(l, ns[n - 2], ns[n - 1]);
    var kept := ns[..n - 1];
    assert Nodes(l') == kept;
    assert l'.length == |kept|;
    assert l'.tail == LastPtr(kept);
    assert l'.heap.Keys == Addrs(kept) by {
      assert l'.heap.Keys == l.heap.Keys - {ns[n - 1]};
      DropLast(ns);
    }
  }

  /** The list after list_tail has freed the node that was both head and
      tail: both ends NULL. */
  function Emptied<T>(l: List<T>): List<T>
    requires l.tail.Addr?
  {
    l.(tail := Null, head := Null, heap := l.heap - {l.tail.addr}, length := l.length - 1)
  }

  lemma RemoveOnlyNode<T>(l: List<T>)
    requires Shaped(l) && l.tail.Addr? && l.head == l.tail
    ensures Shaped(Emptied(l))
    ensures Valid(l) ==> Valid(Emptied(l)) && Elements(Emptied(l)) == Elements(l)[..|Elements(l)| - 1]
  {
    assert Reach(Emptied(l).heap, Null) == Some([]);
    if Valid(l) {
      var ns := Nodes(l);
      ReachShape(l.heap, l.head);
      assert ns == [l.tail.addr];
    }
  }

  /** list_tail: copies the tail's element out; with remove, a one-node list
      becomes empty, and otherwise the node before tail, found by walking
      from head, becomes the new tail. */
  method Tail<T>(l: List<T>, remove: bool) returns (r: Result<(List<T>, T)>)
    requires Shaped(l)
    ensures l.tail == Null ==> r == Err(EmptyCollection)
    ensures l.tail != Null && l.tail.addr !in l.heap ==> r == Err(Fault)
    ensures r.Err? && l.tail.Addr? && l.tail.addr in l.heap ==> r.error == Fault
    ensures r.Ok? ==> l.tail.Addr? && l.tail.addr in l.heap && r.value.1 == l.heap[l.tail.addr].data
    ensures l.tail.Addr? && l.tail.addr in l.heap && !remove ==> r == Ok((l, l.heap[l.tail.addr].data))
    ensures l.tail.Addr? && l.tail.addr in l.heap && remove && l.head == l.tail ==>
      r == Ok((Emptied(l), l.heap[l.tail.addr].data))
    ensures l.tail.Addr? && l.tail.addr in l.heap && remove && l.head != l.tail ==>
      (r.Ok? <==> l.tail.addr in Nodes(l))
    ensures r.Ok? ==> Shaped(r.value.0) && r.value.0.elementSize == l.elementSize && r.value.0.freeFn == l.freeFn
    ensures r.Ok? && remove ==> r.value.0.length == l.length - 1 && r.value.0.heap.Keys == l.heap.Keys - {l.tail.addr}
    ensures r.Ok? && remove && l.head != l.tail ==>
      && r.value.0.head == l.head
      && |Nodes(r.value.0)| < |Nodes(l)|
      && Nodes(r.value.0) == Nodes(l)[..|Nodes(r.value.0)|]
      && Addr(Nodes(l)[|Nodes(r.value.0)|]) == l.tail
      && r.value.0.tail == LastPtr(Nodes(r.value.0))
      && Elements(r.value.0) == Elements(l)[..|Nodes(r.value.0)|]
    ensures r.Ok? && remove && l.head != l.tail ==>
      && |Nodes(r.value.0)| > 0
      && Nodes(r.value.0)[|Nodes(r.value.0)| - 1] in l.heap
      && r.value.0.heap == Redirect(l.heap, Nodes(r.value.0)[|Nodes(r.value.0)| - 1], Null) - {l.tail.addr}
    ensures Valid(l) ==> (r.Ok? <==> Elements(l) != [])
    ensures Valid(l) && r.Ok? ==> r.value.1 == Elements(l)[|Elements(l)| - 1]
    ensures Valid(l) && r.Ok? && remove ==> Valid(r.value.0)
    ensures Valid(l) && r.Ok? && remove ==> Elements(r.value.0) == Elements(l)[..|Elements(l)| - 1]
  {
    if l.tail == Null {
      return Err(EmptyCollection);
    }
    var t := l.tail.addr;
    if t !in l.heap {
      return Err(Fault);
    }
    var x := l.heap[t].data;
    if Valid(l) {
      ValidEnds(l);
    }
    if !remove {
      return Ok((l, x));
    }
    if l.head == l.tail {
      RemoveOnlyNode(l);
      return Ok((Emptied(l), x));
    }
    if l.head == Null {
      assert Nodes(l) == [];
      return Err(Fault);  // current = NULL: the loop condition dereferences it
    }
    var found, i := FindBefore(l);
    if found.Err? {
      assert t !in Nodes(l) by {
        ghost var ns := Nodes(l);
        forall k | 0 <= k < |ns|
          ensures ns[k] != t
        {
          if k == 0 {
            assert Addr(ns[0]) == l.head;
          } else {
            assert Addr(ns[k]) != l.tail;
          }
        }
      }
      return Err(Fault);
    }
    CutBeforeShape(l, i);
    if Valid(l) {
      CutBeforeValid(l);
    }
    return Ok((CutBefore(l, found.value, t), x));
  }

  /** The search in list_tail for the node whose next is tail, walking from
      head. The walk faults if it runs off the end of the chain first. On a
      valid list with two or more nodes it stops at the last node but one. */
  method FindBefore<T>(l: List<T>) returns (r: Result<nat>, ghost i: nat)
    requires Shaped(l) && l.head != Null && l.tail.Addr?
    ensures r.Err? ==> r.error == Fault
    ensures r.Err? ==> forall k :: 0 < k < |Nodes(l)| ==> Addr(Nodes(l)[k]) != l.tail
    ensures r.Ok? ==> i + 1 < |Nodes(l)| && r.value == Nodes(l)[i] && Addr(Nodes(l)[i + 1]) == l.tail
    ensures Valid(l) && l.head != l.tail ==> r.Ok? && i + 2 == |Nodes(l)|
  {
    ghost var ns := Nodes(l);
    ReachLinks(l.heap, l.head, ns);
    ReachShape(l.heap, l.head);
    var current := l.head.addr;
    i := 0;
    while l.heap[current].next != l.tail
      invariant 0 <= i < |ns| && current == ns[i]
      invariant Valid(l) && l.head != l.tail ==> i < |ns| - 1
      invariant forall k :: 0 < k <= i ==> Addr(ns[k]) != l.tail
      decreases |ns| - i
    {
      assert LinkedAt(l.heap, ns, i);
      var next := l.heap[current].next;
      if next == Null {
        return Err(Fault), i;  // current = NULL: the loop condition dereferences it
      }
      current := next.addr;
      i := i + 1;
    }
    assert LinkedAt(l.heap, ns, i);
    return Ok(current), i;
  }

  // ----------------------------------------------------------- list_for_each

  /** The elements list_for_each hands to an iterator that answers `visit`:
      those of s in order, up to and including the first one the iterator
      rejects, or all of s when it rejects none. */
  ghost predicate StopsAtFirstFalse<T>(s: seq<T>, visit: T -> bool, visited: seq<T>) {
    && |visited| <= |s| && visited == s[..|visited|]
    && (forall i :: 0 <= i < |visited| - 1 ==> visit(visited[i]))
    && (|visited| < |s| ==> |visited| > 0 && !visit(visited[|visited| - 1]))
  }

  /** list_for_each: calls the iterator on each element from head to tail,
      stopping right after the first call that returns false. The list is
      passed by value and comes back unchanged. */
  method ForEach<T>(l: List<T>, visit: T -> bool) returns (visited: seq<T>)
    requires Shaped(l)
    ensures StopsAtFirstFalse(Elements(l), visit, visited)
  {
    ghost var ns, s := Nodes(l), Elements(l);
    ReachLinks(l.heap, l.head, ns);
    var node := l.head;
    var result := true;
    visited := [];
    ghost var i := 0;
    while node != Null && result
      invariant 0 <= i <= |ns| && node == PtrAt(ns, i)
      invariant |visited| == i && forall j :: 0 <= j < i ==> visited[j] == s[j]
      invariant forall j :: 0 <= j < i - 1 ==> visit(visited[j])
      invariant result <==> (i == 0 || visit(visited[i - 1]))
      decreases |ns| - i
    {
      assert LinkedAt(l.heap, ns, i);
      var data := l.heap[node.addr].data;
      assert data == s[i];
      result := visit(data);
      visited := visited + [data];
      node := l.heap[node.addr].next;
      i := i + 1;
    }
    assert visited == s[..i];
  }

  // ------------------------------------------------- list_clear, list_destroy

  /** list_clear: frees the nodes one by one from head, decrementing length
      for each, and hands their elements to the release function in list
      order. head ends NULL; tail is left as it was. */
  method Clear<T>(l: List<T>) returns (r: List<T>, released: seq<T>)
    requires Shaped(l)
    ensures Shaped(r)
    ensures released == Elements(l)
    ensures r == l.(head := Null, heap := l.heap - Addrs(Nodes(l)), length := l.length - |Elements(l)|)
    ensures Valid(l) ==> r.length == 0 && r.heap == map[]
    ensures l.head == Null ==> r == l && released == []
  {
    ghost var ns, s := Nodes(l), Elements(l);
    ReachShape(l.heap, l.head);
    r := l;
    released := [];
    ghost var i := 0;
    assert l.heap - Addrs([]) == l.heap;
    while r.head != Null
      invariant 0 <= i <= |ns|
      invariant r == l.(head := r.head, heap := l.heap - Addrs(ns[..i]), length := l.length - i)
      invariant Reach(r.heap, r.head) == Some(ns[i..])
      invariant |released| == i && forall j :: 0 <= j < i ==> released[j] == s[j]
      decreases |ns| - i
    {
      var current := r.head.addr;
      assert current == ns[i] && current in l.heap;
      assert r.heap[current] == l.heap[current];
      released := released + [r.heap[current].data];
      MinusNext(l.heap, ns, i);
      r := r.(head := r.heap[current].next, heap := r.heap - {current}, length := r.length - 1);
      i := i + 1;
      assert ns[i - 1..][1..] == ns[i..];
    }
    assert ns[..i] == ns;
    assert released == s;
    if Valid(l) {
      assert r.heap == map[];
    }
  }

  /** list_clear with the tail reset the C code omits. */
  method ClearCorrected<T>(l: List<T>) returns (r: List<T>, released: seq<T>)
    requires Shaped(l)
    ensures Shaped(r) && r.elementSize == l.elementSize
    ensures r.head == Null && r.tail == Null
    ensures r == l.(head := Null, tail := Null, heap := l.heap - Addrs(Nodes(l)), length := l.length - |Elements(l)|)
    ensures released == Elements(l)
    ensures Valid(l) ==> Valid(r) && Elements(r) == [] && r.heap == map[]
  {
    r, released := Clear(l);
    r := r.(tail := Null);
  }

  /** list_destroy: the same head-advancing loop as list_clear, after which
      the list must not be used again; what is left is the nodes the list no
      longer reaches. It does not decrement length, which nothing can
      observe once the list is destroyed. */
  method Destroy<T>(l: List<T>) returns (released: seq<T>, leaked: Store<T>)
    requires Shaped(l)
    ensures released == Elements(l)
    ensures leaked == l.heap - Addrs(Nodes(l))
    ensures Valid(l) ==> leaked == map[]
  {
    var r;
    r, released := Clear(l);
    leaked := r.heap;
  }

  // --------------------------------------------------------------- list_size

  /** list_size: the stored length, which on a valid list is the number of
      elements reachable from head. */
  function Size<T>(l: List<T>): (n: int)
    ensures Valid(l) ==> n == |Elements(l)|
  {
    l.length
  }
}

=== FILE: outcomes.dfy ===
/** Optional values and the outcomes of the list operations. */
module Outcomes {

  datatype Option<+T> = None | Some(value: T)

  /** Why a list operation did not complete.
      The C functions report the first three by returning -1; `Fault` stands
      for what C leaves undefined: reading or writing through a NULL pointer
      or through a node that has already been freed. */
  datatype Error =
    | InvalidArgument    // list_new with elementSize <= 0
    | ResourceExhausted  // calloc of a node or of its data buffer failed
    | EmptyCollection    // list_head / list_tail on a list with no such node
    | Fault              // undefined behaviour: dereference of NULL or freed memory

  datatype Result<+T> = Ok(value: T) | Err(error: Error)
}

=== FILE: properties.dfy ===
/** Properties of call sequences: repeated appends and prepends, draining
    from either end, the append/read round trip, and the order in which
    list_for_each visits. These use the corrected operations wherever a
    list may become empty. */
module ListProperties {
  import opened Outcomes
  import opened Heap
  import opened TypedList
  import opened Sequences

  /** Addresses calloc may hand out in turn to a list: none live, no two alike. */
  predicate FreshAddrs<T>(l: List<T>, addrs: seq<nat>) {
    Distinct(addrs) && forall i :: 0 <= i < |addrs| ==> addrs[i] !in l.heap
  }

  /** list_append called with each of es in turn, calloc answering with
      addrs: the elements follow the list's own in call order. */
  method AppendEach<T>(l: List<T>, es: seq<T>, addrs: seq<nat>) returns (grown: List<T>)
    requires Valid(l) && |addrs| == |es| && FreshAddrs(l, addrs)
    ensures Valid(grown) && Elements(grown) == Elements(l) + es
    ensures Size(grown) == Size(l) + |es|
  {
    grown := l;
    var i := 0;
    while i < |es|
      invariant 0 <= i <= |es|
      invariant Valid(grown) && Elements(grown) == Elements(l) + es[..i]
      invariant Size(grown) == Size(l) + i
      invariant forall k :: i <= k < |addrs| ==> addrs[k] !in grown.heap
    {
      var next := Append(grown, es[i], At(addrs[i]));
      TakeStep(es, i, Elements(l));
      grown := next.value;
      i := i + 1;
    }
    assert es[..i] == es;
  }

  /** list_prepend called with each of es in turn, calloc answering with
      addrs: the elements precede the list's own in reverse call order, the
      last one prepended first. */
  method PrependEach<T>(l: List<T>, es: seq<T>, addrs: seq<nat>) returns (grown: List<T>)
    requires Valid(l) && |addrs| == |es| && FreshAddrs(l, addrs)
    ensures Size(grown) == Size(l) + |es|
    ensures Valid(grown) && |Elements(grown)| == |es| + |Elements(l)|
    ensures forall k :: 0 <= k < |es| ==> Elements(grown)[k] == es[|es| - 1 - k]
    ensures Elements(grown)[|es|..] == Elements(l)
  {
    grown := l;
    var i := 0;
    while i < |es|
      invariant 0 <= i <= |es|
      invariant Valid(grown) && Elements(grown) == Reverse(es[..i]) + Elements(l)
      invariant Size(grown) == Size(l) + i
      invariant forall k :: i <= k < |addrs| ==> addrs[k] !in grown.heap
    {
      var next := Prepend(grown, es[i], At(addrs[i]));
      ReverseTakeStep(es, i, Elements(l));
      grown := next.value;
      i := i + 1;
    }
    assert es[..i] == es;
    forall k | 0 <= k < |es|
      ensures Elements(grown)[k] == es[|es| - 1 - k]
    {
      ReverseAt(es, k);
    }
  }

  /** The corrected list_head with remove, called until it reports an empty
      list, yields the elements in order and leaves the list empty, with
      head and tail both NULL and size 0. */
  method DrainHeads<T>(l: List<T>) returns (last: List<T>, os: seq<T>)
    requires Valid(l)
    ensures os == Elements(l)
    ensures Valid(last) && Elements(last) == [] && Size(last) == 0
    ensures last.head == Null && last.tail == Null
  {
    last, os := l, [];
    var done := false;
    while !done
      invariant Valid(last)
      invariant |os| + |Elements(last)| == |Elements(l)|
      invariant os == Elements(l)[..|os|]
      invariant Elements(last) == Elements(l)[|os|..]
      invariant done ==> Elements(last) == []
      decreases |Elements(last)|, !done
    {
      var r := HeadCorrected(last, true);
      if r.Err? {
        done := true;
      } else {
        var s := Elements(l);
        TakeNext(s, |os|);
        assert s[|os|..][1..] == s[|os| + 1..];
        os := os + [r.value.1];
        last := r.value.0;
      }
    }
    ValidEnds(last);
  }

  /** list_tail with remove, called until it reports an empty list, yields
      the elements from tail to head and leaves the list empty. */
  method DrainTails<T>(l: List<T>) returns (last: List<T>, os: seq<T>)
    requires Valid(l)
    ensures os == Reverse(Elements(l))
    ensures Valid(last) && Elements(last) == [] && Size(last) == 0
  {
    last, os := l, [];
    var done := false;
    while !done
      invariant Valid(last) && last.elementSize == l.elementSize
      invariant |Elements(last)| <= |Elements(l)|
      invariant Elements(last) == Elements(l)[..|Elements(last)|]
      invariant os == Reverse(Elements(l)[|Elements(last)|..])
      invariant done ==> Elements(last) == []
      decreases |Elements(last)|, !done
    {
      var r := Tail(last, true);
      if r.Err? {
        done := true;
      } else {
        var m := |Elements(last)|;
        var s := Elements(l);
        assert r.value.1 == s[m - 1];
        assert s[m - 1..][1..] == s[m..];
        os := os + [r.value.1];
        last := r.value.0;
      }
    }
    assert Elements(l)[0..] == Elements(l);
  }

  /** Append to an empty list, then list_head without remove: the appended
      element comes back and the size stays 1. */
  lemma AppendThenHeadOnEmpty<T>(l: List<T>, e: T, alloc: Alloc)
    requires Valid(l) && Elements(l) == [] && alloc.At? && FreshFor(l, alloc)
    ensures var h := Head(Append(l, e, alloc).value, false);
      h.Ok? && h.value.1 == e && Size(h.value.0) == 1
  {
    assert Elements(Append(l, e, alloc).value) == [e];
  }

  /** Prepend to a valid list, then list_head with remove: the prepended
      element comes back and the contents are restored. The as-written
      list_head leaves a valid list only when the list was not empty
      before: otherwise tail keeps the freed node. */
  lemma PrependThenHead<T>(l: List<T>, e: T, alloc: Alloc)
    requires Valid(l) && alloc.At? && FreshFor(l, alloc)
    ensures var r := Head(Prepend(l, e, alloc).value, true);
      && r.Ok? && r.value.1 == e && Shaped(r.value.0)
      && Elements(r.value.0) == Elements(l) && Size(r.value.0) == Size(l)
      && (Valid(r.value.0) <==> Elements(l) != [])
  {
    ValidEnds(l);
    assert Elements(Prepend(l, e, alloc).value)[1..] == Elements(l);
  }

  /** Append to any valid list, then list_tail without remove: the appended
      element comes back and the list is the appended one. */
  method AppendThenTail<T>(l: List<T>, e: T, alloc: Alloc) returns (r: Result<(List<T>, T)>)
    requires Valid(l) && alloc.At? && FreshFor(l, alloc)
    ensures r.Ok? && r.value.1 == e && Valid(r.value.0)
    ensures Elements(r.value.0) == Elements(l) + [e] && Size(r.value.0) == Size(l) + 1
  {
    var l' := Append(l, e, alloc).value;
    r := Tail(l', false);
  }

  /** A list of 4-byte elements holding [1,2,3,4] then [5,6,7,8]: reading
      the head keeps both, removing the tail leaves one node that is both
      head and tail. */
  method FourByteScenario() returns (size: int, first: seq<int>, sizeAfterHead: int, removed: seq<int>, sizeAfterTail: int, endsMeet: bool)
    ensures size == 2 && first == [1, 2, 3, 4] && sizeAfterHead == 2
    ensures removed == [5, 6, 7, 8] && sizeAfterTail == 1 && endsMeet
  {
    var a, b := [1, 2, 3, 4], [5, 6, 7, 8];
    var l := New<seq<int>>(4, None).value;
    l := Append(l, a, At(1)).value;
    l := Append(l, b, At(2)).value;
    assert Elements(l) == [a, b];
    size := Size(l);
    var h := Head(l, false).value;
    first := h.1;
    sizeAfterHead := Size(h.0);
    var t := Tail(h.0, true);
    removed := t.value.1;
    l := t.value.0;
    assert Elements(l) == [a];
    sizeAfterTail := Size(l);
    ValidEnds(l);
    endsMeet := l.head == l.tail && l.head != Null && l.heap[l.head.addr].data == a;
  }

  // ---------------------------------------------------- list_for_each order

  /** A reference definition of the elements an iterator sees. */
  function StopPrefix<T>(s: seq<T>, visit: T -> bool): seq<T> {
    if s == [] then []
    else if !visit(s[0]) then [s[0]]
    else [s[0]] + StopPrefix(s[1..], visit)
  }

  lemma {:induction false} StopPrefixStops<T>(s: seq<T>, visit: T -> bool)
    ensures StopsAtFirstFalse(s, visit, StopPrefix(s, visit))
  {
    if s != [] && visit(s[0]) {
      StopPrefixStops(s[1..], visit);
    }
  }

  /** Only one prefix stops at the first rejection, so list_for_each visits
      exactly StopPrefix of the list's elements. */
  lemma StopsAtFirstFalseUnique<T>(s: seq<T>, visit: T -> bool, v: seq<T>)
    requires StopsAtFirstFalse(s, visit, v)
    ensures v == StopPrefix(s, visit)
  {
    StopPrefixStops(s, visit);
  }

  /** An iterator that accepts every element sees all of them. */
  lemma {:induction false} FullTraversal<T>(s: seq<T>, visit: T -> bool)
    requires forall i :: 0 <= i < |s| ==> visit(s[i])
    ensures StopPrefix(s, visit) == s
  {
    if s != [] {
      assert visit(s[0]);
      FullTraversal(s[1..], visit);
      ConsFirst(s);
    }
  }

  /** Appending e1..en to an empty list and then traversing it with an
      iterator that always continues visits e1..en in that order. */
  method AppendThenTraverse<T>(l: List<T>, es: seq<T>, addrs: seq<nat>, visit: T -> bool) returns (visited: seq<T>)
    requires Valid(l) && Elements(l) == [] && |addrs| == |es| && FreshAddrs(l, addrs)
    requires forall x :: visit(x)
    ensures visited == es
  {
    var r := AppendEach(l, es, addrs);
    visited := ForEach(r, visit);
    StopsAtFirstFalseUnique(Elements(r), visit, visited);
    FullTraversal(Elements(r), visit);
  }
}

=== FILE: seqs.dfy ===
/** Facts about sequences that the list proofs use: taking one more element
    of a sequence, and reversal. */
module Sequences {

  function Reverse<T>(s: seq<T>): (r: seq<T>)
    ensures |r| == |s|
  {
    if s == [] then [] else Reverse(s[1..]) + [s[0]]
  }

  /** The prefix of length i + 1 is the prefix of length i and then s[i]. */
  lemma TakeNext<T>(s: seq<T>, i: nat)
    requires i < |s|
    ensures s[..i] + [s[i]] == s[..i + 1]
  {
  }

  lemma ConsFirst<T>(s: seq<T>)
    requires s != []
    ensures [s[0]] + s[1..] == s
  {
  }

  /** One more element of es taken, after a fixed front. */
  lemma TakeStep<T>(es: seq<T>, i: nat, front: seq<T>)
    requires i < |es|
    ensures (front + es[..i]) + [es[i]] == front + es[..i + 1]
  {
    TakeNext(es, i);
  }

  lemma {:induction false} ReverseSnoc<T>(s: seq<T>, x: T)
    ensures Reverse(s + [x]) == [x] + Reverse(s)
    decreases |s|
  {
    if s != [] {
      assert (s + [x])[1..] == s[1..] + [x];
      ReverseSnoc(s[1..], x);
    } else {
      assert [x][1..] == [];
    }
  }

  /** Reversal reads a sequence from the other end. */
  lemma {:induction false} ReverseAt<T>(s: seq<T>, k: nat)
    requires k < |s|
    ensures Reverse(s)[k] == s[|s| - 1 - k]
    decreases |s|
  {
    if k < |s| - 1 {
      ReverseAt(s[1..], k);
    }
  }

  /** One more element of es taken, reversed, before a fixed back. */
  lemma ReverseTakeStep<T>(es: seq<T>, i: nat, back: seq<T>)
    requires i < |es|
    ensures [es[i]] + (Reverse(es[..i]) + back) == Reverse(es[..i + 1]) + back
  {
    TakeNext(es, i);
    ReverseSnoc(es[..i], es[i]);
  }
}
